=== FILE: README.md ===
# MarkApp authentication token lifecycle, in Dafny

This project models the authentication core of MarkApp, a settings UI with a
small Express proxy. The client keeps a bearer token in local storage under
`authToken` and optionally the user's credentials under `authSettings`. A
stored token is used while it is less than 24 hours old. When no fresh token
is stored, the remembered credentials are posted to the server's `/api/auth`
route for a new one. A timer repeats that fetch every 23 hours. The server
route forwards the credentials to an external authentication service and
records the user locally. The client's axios interceptor turns every failed
request into a single message.

Everything is modelled as pure functions over immutable records:

- Time is an integer number of milliseconds, passed in as `now`.
- The network is an abstract outcome value:
  - `AuthOutcome` is the settled client request;
  - `Upstream` is the external service's answer;
  - a boolean says whether `createUser` succeeded.
- Local storage is a record with one optional field per key.

Modules:

- `Records` (records.dfy): shared types (`Option`, `Settings`, `TokenData`, `Store`, `Credentials`, toast tags).
- `TokenLifecycle` (token_lifecycle.dfy): the `useToken` hook.
- `SettingsPage` (settings_page.dfy): the settings form, its mount effect, the refresh-time display and the manual refresh.
- `ApiClient` (api_client.dfy): the response interceptor.
- `AuthRoute` (auth_route.dfy): the `/api/auth` handler.
- `EndToEnd` (end_to_end.dfy): the route's reply as it reaches `fetchNewToken`. A reply delivered through axios resolves only for a 2xx status, which is axios's default status check.
- `Session` (session.dfy): sequences of events (navigating to a page, interval firing, form submit, manual refresh) over the mounted page and its hook, with induction proofs over them.

Behaviours of the code that the model keeps as written:

- `initialize` tests the truthiness of what `loadSavedToken` returns. A fresh stored token that is the empty string therefore still triggers a fetch.
- The refresh-time display is guarded by `!tokenInfo?.timestamp`. A timestamp of 0 therefore shows no refresh instant.
- `handleRefreshToken` shows "Token Refreshed" whenever an `authToken` entry exists, even when the fetch failed or obtained nothing.
- `saveToken` reads the clock after the request settles. The saved timestamp is therefore the completion time, which is `now` in `FetchNewToken`. `Initialize` takes two instants: `now` for the age check at mount and `settled` for the completion of its fetch.
- Every mount starts a new hook instance whose token is null. The router renders one page at a time, so navigating between pages remounts the hook. `Session.Apply` therefore clears the in-memory token on `Navigate`.
- The refresh button is rendered only while the settings page's token panel shows an entry. The panel is set when the page mounts, from the storage read before its hook's fetch completes, and after each manual refresh. The interval never updates it. `Session.Apply` tracks the panel and ignores a manual refresh while it is empty. The settings form exists only on the settings page, so a submission made elsewhere is ignored too.
- The 23-hour interval is started at mount, not at the last save. A reused token can therefore expire before the first firing (see "## Findings").

## Model

| member | source | states |
|---|---|---|
| TokenLifecycle.SaveToken | client/src/lib/useToken.ts:14-21 | the new token becomes the in-memory token and is stored with timestamp `now`, so it is fresh at `now`; the credentials entry is kept |
| TokenLifecycle.LoadSavedToken | client/src/lib/useToken.ts:23-33 | returns the stored token exactly when an entry exists and less than 86 400 000 ms have passed since its timestamp; no entry gives null |
| TokenLifecycle.CredentialsToSend | client/src/lib/useToken.ts:37-46 | a request is made exactly when credentials are saved, remembering is on, and both the username and the password are non-empty; it carries the saved pair |
| TokenLifecycle.FetchNewToken | client/src/lib/useToken.ts:35-65 | with no sendable credentials: no request, no change, null. A truthy token is stored with timestamp `now`, made current and returned, with the success toast. A failure or a falsy token: null and the client unchanged, with the error toast only for a failure. `authSettings` is never written. The in-memory token stays equal to the stored one |
| TokenLifecycle.Initialize | client/src/lib/useToken.ts:68-75 | a token that is fresh at mount time and truthy becomes current, with no request and no toast; otherwise the step is exactly the fetch, saving with the completion time |
| TokenLifecycle.Tick | client/src/lib/useToken.ts:79-80 | a firing posts the remembered credentials if any. The client changes only when a truthy token arrives. When one does, the result is exactly `saveToken` of it at the instant the request settled: the hook holds that token, and storage holds it stamped with that instant, still returned 23 h after it. `authSettings` is kept, an existing token entry is never removed, and so is the token invariant |
| TokenLifecycle.SaveThenLoad | client/src/lib/useToken.ts:14-33 | round trip: a token saved at T is read back exactly while now < T + 24 h, and null after that |
| TokenLifecycle.ExpiryBoundary | client/src/lib/useToken.ts:27-32 | the token is returned 1 ms before 24 h and is null at exactly 24 h |
| TokenLifecycle.TickBeforeExpiry | client/src/lib/useToken.ts:79-80 | the 23 h period is one hour shorter than the 24 h window, so a token saved at T is still returned at T + 23 h and for up to one hour after it |
| SettingsPage.Submit | client/src/pages/settings-page.tsx:71-78 | remembering on: `authSettings` becomes exactly the submitted record. Remembering off: the entry is removed whatever it held. `authToken` is never touched |
| SettingsPage.Mount | client/src/pages/settings-page.tsx:33-54 | the form shows the saved record, or the defaults (remember off, empty username and password) when none is saved; the token panel shows the stored entry |
| SettingsPage.SubmitThenMount | client/src/pages/settings-page.tsx:42-78 | round trip: reopening the page after a remembered submission shows the submitted record, after a non-remembered one the defaults; the token panel is unaffected |
| SettingsPage.SubmitThenFetch | client/src/pages/settings-page.tsx:74-77 | after a remembered submission with a non-empty username and password, the next fetch posts exactly that pair; after any other submission it posts nothing, changes nothing and yields null |
| SettingsPage.RefreshInstant | client/src/pages/settings-page.tsx:57-63 | the displayed refresh instant is the token's timestamp plus 23 h; nothing is shown without an entry or with timestamp 0 |
| SettingsPage.RefreshInstantBeforeExpiry | client/src/pages/settings-page.tsx:60-62 | the displayed refresh instant is while the token is still fresh, and the token expires one hour later |
| SettingsPage.HandleRefreshToken | client/src/pages/settings-page.tsx:104-123 | runs the fetch, then the panel shows the stored entry if one exists (else keeps its old value); "Token Refreshed" is shown exactly when an entry exists |
| SettingsPage.RefreshShowsStoredEntry | client/src/pages/settings-page.tsx:104-115 | after a refresh the panel equals what is stored; after a successful fetch it shows the new token stamped with the refresh time |
| SettingsPage.VisibleRefreshAlwaysConfirmed | client/src/pages/settings-page.tsx:143-154 | the refresh button exists only while the panel shows an entry, and then every refresh raises "Token Refreshed" and the panel still shows an entry |
| SettingsPage.FailedRefreshStillConfirmed | client/src/pages/settings-page.tsx:106-115 | with an entry stored, a failed refresh raises both the error toast and "Token Refreshed", and the panel keeps the old entry |
| ApiClient.ErrorMessage | client/src/lib/api.ts:12-23 | 401 gives "Invalid username or password" whatever the body says. Another status gives its non-empty body message, or else "An unexpected error occurred". No response but a request gives "Unable to reach the server". Neither gives "An unexpected error occurred" |
| ApiClient.ServerTextOnlyFromNon401 | client/src/lib/api.ts:15-20 | a message other than the three fixed ones is the body message of a non-401 response |
| ApiClient.Intercept | client/src/lib/api.ts:10-27 | a successful response passes through unchanged; every error rejects, carrying the classified message |
| AuthRoute.HandleAuth | server/routes.ts:8-38 | the reply status is always 200 or 401. It is 200, with the upstream token, exactly when the upstream returned 200 and `createUser` succeeded. `createUser` is called only after an upstream 200, with the username and "external-auth". Another upstream status gives "Invalid credentials". A throw gives the upstream message or else "Authentication failed". A failed `createUser` gives "Authentication failed" |
| AuthRoute.Failure | server/routes.ts:32-36 | the catch block replies 401 with the non-empty message from the error response body, or else "Authentication failed" |
| AuthRoute.PasswordNeverStored | server/routes.ts:22-26 | the user record never holds the submitted password |
| EndToEnd.ProxyAnswer | server/routes.ts:19-36 | what the client sees of the route: the upstream token exactly when the upstream returned 200 and the user was saved; otherwise a rejection with "Invalid username or password" |
| EndToEnd.EveryFailureIsInvalidLogin | client/src/lib/api.ts:15-17 | every non-200 reply of the route rejects with "Invalid username or password"; a 200 reply passes through unchanged |
| EndToEnd.FetchThroughProxy | client/src/lib/useToken.ts:43-55 | a fetch answered by the route obtains a token exactly when the upstream returned 200 with a non-empty token and the user was saved; then that token is stored with timestamp `now` and is current; otherwise the client is unchanged |
| Session.Apply | client/src/pages/settings-page.tsx:143-154 | a navigation remounts the hook with a null token, so with no fresh stored token and no sendable credentials the hook holds no token, whatever the previous one held. The settings page mounts with the stored entries or the form defaults. The interval never changes the page. A submission off the settings page, or a refresh while the panel is empty, changes nothing. After a visible refresh the panel shows the stored entry |
| Session.ApplyKeepsConsistent | client/src/lib/useToken.ts:14-75 | each event keeps the hook's token unset or equal to the non-empty stored token, and keeps a stored entry behind a visible refresh button |
| Session.RunKeepsConsistent | client/src/lib/useToken.ts:12-21 | the same holds after any sequence of events, starting from a null token |
| Session.ReachableRefreshConfirmed | client/src/pages/settings-page.tsx:106-115 | in a consistent session every refresh the user can click raises "Token Refreshed", whatever the fetch obtained |
| Session.CredentialsOwnedBySettingsForm | client/src/pages/settings-page.tsx:74-78 | after any session, `authSettings` is what the last submission made on the settings page left (the record, or nothing), or its initial value if there was none |
| Session.TokenEntryNeverRemoved | client/src/lib/useToken.ts:19 | once an `authToken` entry exists, no event removes it; stale tokens are ignored, not deleted |
| Session.ScheduledRefreshKeepsTokenFresh | client/src/lib/useToken.ts:79-80 | if every firing succeeds, each comes less than 24 h after the previous save (stamped when that request settled), and each request settles before the next firing, the stored token is still fresh at every firing |
| Session.IntervalBeats | client/src/lib/useToken.ts:77-80 | the firings of the interval come at mount + k·23 h, for k = 1, 2, …, whenever the token was saved; each firing's save is stamped when its request settles, no earlier than the firing |
| Session.IntervalBeatsOnSchedule | client/src/lib/useToken.ts:79-80 | consecutive firings are 23 h apart and each request settles within 23 h of its firing, so before the next one; after a save less than 24 h before the next firing all firings are on schedule |
| Session.IntervalKeepsTokenFreshAfterSave | client/src/lib/useToken.ts:77-80 | once a fetch at mount or at a firing has stored a token before the next firing, every following firing finds the stored token fresh, while they all succeed and each settles before the next firing |
| Session.ReusedTokenExpiresBeforeFirstFiring | client/src/lib/useToken.ts:69-80 | a stored token reused at mount that was more than 1 h old causes no request, stays in the hook, and is expired at the first firing (mount + 23 h) |
| Session.ReusedTokenStaleWindow | client/src/lib/useToken.ts:69-80 | in that case the hook holds the expired token from its expiry until the first firing, a window shorter than 23 h |
| Session.CorrectedAnchor | client/src/lib/useToken.ts:77-80 | corrected interval: when a token is reused, the first firing comes 23 h after it was saved, or at mount if that instant has passed, and always before the token expires; otherwise 23 h after mount |
| Session.CorrectedScheduleKeepsTokenFresh | client/src/lib/useToken.ts:68-80 | with the corrected anchor, a hook that starts with a token (reused, or fetched at mount) finds it fresh at every firing, while each firing succeeds and every request settles before the next firing |

## Findings

| source | as written | input that shows it | evidently intended | confidence | as-written member | corrected member |
|---|---|---|---|---|---|---|
| client/src/lib/useToken.ts:69-80 | the 23 h interval starts at mount, even when `initialize` reuses a stored token | token saved at 0, mount at 20 h: no request at mount, and the first firing at 43 h finds the token expired; from 24 h to 43 h the hook holds the expired token | a refresh before the 24 h window closes, as the 23 h period is chosen to give | high; not executed | Session.ReusedTokenExpiresBeforeFirstFiring | Session.CorrectedScheduleKeepsTokenFresh |

## Left out

- JSON encoding of the two entries. Storage holds typed records. Both `loadSavedToken` and the settings page parse without a guard, so malformed stored data is not modelled as absent.
- React rendering, hooks, navigation and the `setTimeout` redirect. Toasts are kept only as event tags. The "Settings saved" toast and the `isLoading` flag of `onSubmit` are not modelled.
- The `catch` branches of `onSubmit` and `handleRefreshToken`. Storage writes are not modelled as failing, and `fetchNewToken` catches its own errors.
- The `setInterval`/`clearInterval` lifetimes. The 23-hour interval is an explicit `Session.Interval` event, which applies `TokenLifecycle.Tick`. The 60-second display ticker and the date-fns formatting are also left out; only the refresh instant is modelled.
- The one-second redirect to the home page after a submission. Navigation is an explicit `Navigate` event.
- Overlapping asynchronous fetches and their completion order: the source has no guard for them. The schedule lemmas (`Session.ScheduledRefreshKeepsTokenFresh`, `Session.IntervalKeepsTokenFreshAfterSave`, `Session.CorrectedScheduleKeepsTokenFresh`) take as given that each request settles before the next firing, and say nothing about a request that takes 23 h or more.
- Session.RunKeepsConsistent: events are atomic. Each event's request settles before the next event. A request still in flight when its page is left is not modelled. In the source a user can click "Refresh Token" and then "Back" before the request settles. The main screen's new hook reuses the old token, and the unmounted instance's `saveToken` then writes the new one to storage, so the hook and storage disagree.
- Date.now() returns a double. Timestamps are unbounded integers, which is exact for every realistic millisecond count.
- The axios transport and the external service. Their results are the abstract `AuthOutcome` and `Upstream` values. Axios rejects non-2xx upstream statuses, so the route's "returned with another status" branch is reachable only for other 2xx statuses.
- The internals of `storage.createUser` (server/storage is not part of this model). It is a success flag. Its error is assumed to carry no HTTP response body.
- client/src/App.tsx (routing, and a main screen that only tests whether a token is present) and attached_assets/main.py (a standalone prototype UI).

=== FILE: api_client.dfy ===
/** The client's axios instance and its response interceptor: a successful
    response passes through, every error is turned into a rejection carrying
    one user-facing message. */
module ApiClient {
  import opened Records

  const UnexpectedMessage: string := "An unexpected error occurred"
  const InvalidLoginMessage: string := "Invalid username or password"
  const UnreachableMessage: string := "Unable to reach the server"

  /** The HTTP response attached to an axios error: its status and the
      `message` field of its body, if any. */
  datatype ErrorResponse = ErrorResponse(status: int, message: Option<string>)

  /** The shape of an axios error: the response, if one arrived, and whether
      a request was sent at all. */
  datatype RequestError = RequestError(response: Option<ErrorResponse>, requestSent: bool)

  /** What axios hands to the interceptor. */
  datatype HttpResult<T> = Succeeded(data: T) | Errored(error: RequestError)

  /** How the request promise settles after the interceptor. */
  datatype Settled<T> = Resolved(data: T) | Rejected(message: string)

  /** The error handler's choice of message. */
  function ErrorMessage(e: RequestError): (m: string)
    ensures e.response.Some? && e.response.value.status == 401 ==> m == "Invalid username or password"
    ensures e.response.Some? && e.response.value.status != 401 && Truthy(e.response.value.message) ==>
      m == e.response.value.message.value
    ensures e.response.Some? && e.response.value.status != 401 && !Truthy(e.response.value.message) ==>
      m == "An unexpected error occurred"
    ensures e.response.None? && e.requestSent ==> m == "Unable to reach the server"
    ensures e.response.None? && !e.requestSent ==> m == "An unexpected error occurred"
  {
    match e.response
    case Some(resp) =>
      if resp.status == 401 then InvalidLoginMessage
      else if Truthy(resp.message) then resp.message.value
      else UnexpectedMessage
    case None => if e.requestSent then UnreachableMessage else UnexpectedMessage
  }

  /** A message other than the three fixed ones can only be the body message
      of a non-401 response; the body of a 401 never reaches the user. */
  lemma ServerTextOnlyFromNon401(e: RequestError)
    requires ErrorMessage(e) != UnexpectedMessage
    requires ErrorMessage(e) != InvalidLoginMessage
    requires ErrorMessage(e) != UnreachableMessage
    ensures e.response.Some? && e.response.value.status != 401
    ensures e.response.value.message == Some(ErrorMessage(e))
  {
  }

  /** The interceptor: successes pass through unchanged, errors always
      reject with `ErrorMessage`. */
  function Intercept<T>(h: HttpResult<T>): (r: Settled<T>)
    ensures r.Resolved? <==> h.Succeeded?
    ensures r.Resolved? ==> r.data == h.data
    ensures r.Rejected? ==> r.message == ErrorMessage(h.error)
  {
    match h
    case Succeeded(d) => Resolved(d)
    case Errored(e) => Rejected(ErrorMessage(e))
  }
}

=== FILE: auth_route.dfy ===
/** The server's POST /api/auth handler: forwards the credentials upstream,
    records the user locally on success, and maps the upstream outcome to a
    reply. */
module AuthRoute {
  import opened Records

  /** The password recorded for every user instead of the submitted one. */
  const PlaceholderPassword: string := "external-auth"
  const InvalidCredentialsMessage: string := "Invalid credentials"
  const AuthFailedMessage: string := "Authentication failed"

  /** The upstream call: it returned with a status and the `token` field of
      its body, or it threw, with the `message` of the error response body
      when there was one. */
  datatype Upstream = Returned(status: int, token: Option<string>) | Threw(message: Option<string>)

  /** The JSON body of the reply. */
  datatype ReplyBody = TokenBody(token: Option<string>) | MessageBody(message: string)

  datatype Reply = Reply(status: int, body: ReplyBody)

  /** The record passed to `storage.createUser`. */
  datatype UserRecord = UserRecord(username: string, password: string)

  /** The reply and the `createUser` call the handler made, if any. */
  datatype Handled = Handled(reply: Reply, createdUser: Option<UserRecord>)

  /** The handler. `userSaved` is whether `createUser` resolves; when it
      rejects, the catch block answers as for an upstream error without a
      response body. */
  function HandleAuth(req: Credentials, upstream: Upstream, userSaved: bool): (r: Handled)
    ensures r.reply.status == 200 || r.reply.status == 401
    ensures r.reply.status == 200 <==> upstream.Returned? && upstream.status == 200 && userSaved
    ensures r.reply.status == 200 ==> r.reply.body == TokenBody(upstream.token)
    ensures r.createdUser.Some? <==> upstream.Returned? && upstream.status == 200
    ensures r.createdUser.Some? ==> r.createdUser.value == UserRecord(req.username, "external-auth")
    ensures upstream.Returned? && upstream.status != 200 ==>
      r.reply == Reply(401, MessageBody("Invalid credentials"))
    ensures upstream.Threw? && Truthy(upstream.message) ==>
      r.reply == Reply(401, MessageBody(upstream.message.value))
    ensures upstream.Threw? && !Truthy(upstream.message) ==>
      r.reply == Reply(401, MessageBody("Authentication failed"))
    ensures upstream.Returned? && upstream.status == 200 && !userSaved ==>
      r.reply == Reply(401, MessageBody("Authentication failed"))
  {
    match upstream
    case Returned(status, token) =>
      if status == 200 then
        var user := UserRecord(req.username, PlaceholderPassword);
        if userSaved then Handled(Reply(200, TokenBody(token)), Some(user))
        else Handled(Failure(None), Some(user))
      else Handled(Reply(401, MessageBody(InvalidCredentialsMessage)), None)
    case Threw(message) => Handled(Failure(message), None)
  }

  /** The catch block's reply for an error whose response body carried
      `message`. */
  function Failure(message: Option<string>): (r: Reply)
    ensures r.status == 401 && r.body.MessageBody?
    ensures Truthy(message) ==> r.body.message == message.value
    ensures !Truthy(message) ==> r.body.message == "Authentication failed"
  {
    Reply(401, MessageBody(if Truthy(message) then message.value else AuthFailedMessage))
  }

  /** The submitted password is never recorded: whatever the request, the
      user record holds the placeholder. */
  lemma PasswordNeverStored(req: Credentials, upstream: Upstream, userSaved: bool)
    requires req.password != PlaceholderPassword
    ensures HandleAuth(req, upstream, userSaved).createdUser.Some? ==>
      HandleAuth(req, upstream, userSaved).createdUser.value.password != req.password
  {
  }
}

=== FILE: end_to_end.dfy ===
/** The auth round trip across both sides: the route's reply, delivered by
    axios (a 2xx status resolves, anything else is an error carrying the
    response), passed through the client's interceptor and consumed by
    `fetchNewToken`. */
module EndToEnd {
  import opened Records
  import opened ApiClient
  import opened AuthRoute
  import opened TokenLifecycle

  /** axios's default status check: only 2xx statuses resolve; an error
      response exposes the `message` field of its body. */
  function Deliver(reply: Reply): (r: HttpResult<ReplyBody>)
  {
    if 200 <= reply.status < 300 then Succeeded(reply.body)
    else
      var message := if reply.body.MessageBody? then Some(reply.body.message) else None;
      Errored(RequestError(Some(ErrorResponse(reply.status, message)), true))
  }

  /** What `fetchNewToken` sees of the settled request: `response.data.token`
      (absent when the body has no `token` field) or the rejection message. */
  function AsAuthOutcome(s: Settled<ReplyBody>): (r: AuthOutcome)
  {
    match s
    case Resolved(body) => Answered(if body.TokenBody? then body.token else None)
    case Rejected(m) => Failed(m)
  }

  /** The client-side outcome of posting `req` to the route. */
  function ProxyAnswer(req: Credentials, upstream: Upstream, userSaved: bool): (a: AuthOutcome)
    ensures a.Answered? <==> upstream.Returned? && upstream.status == 200 && userSaved
    ensures a.Answered? ==> a.token == upstream.token
    ensures a.Failed? ==> a.message == "Invalid username or password"
  {
    AsAuthOutcome(Intercept(Deliver(HandleAuth(req, upstream, userSaved).reply)))
  }

  /** Because the route answers only 200 or 401, every failure reaches the
      user as the invalid-login message, whatever text the upstream service
      or the route put in the body. */
  lemma EveryFailureIsInvalidLogin(req: Credentials, upstream: Upstream, userSaved: bool)
    ensures var reply := HandleAuth(req, upstream, userSaved).reply;
      && (reply.status == 200 ==> Intercept(Deliver(reply)) == Resolved(reply.body))
      && (reply.status != 200 ==> Intercept(Deliver(reply)) == Rejected(InvalidLoginMessage))
  {
  }

  /** A fetch answered by the route obtains a token exactly when the
      upstream service returned 200 with a non-empty token and the local
      user record was saved; then that token is stored and current. In
      every other case the client is unchanged. */
  lemma FetchThroughProxy(c: Client, now: int, upstream: Upstream, userSaved: bool)
    requires CredentialsToSend(c.store.authSettings).Some?
    ensures var req := CredentialsToSend(c.store.authSettings).value;
      var f := FetchNewToken(c, now, ProxyAnswer(req, upstream, userSaved));
      && (f.result.Some? <==>
           upstream.Returned? && upstream.status == 200 && Truthy(upstream.token) && userSaved)
      && (f.result.Some? ==>
           f.step.client == Client(c.store.(authToken := Some(TokenData(upstream.token.value, now))), upstream.token))
      && (f.result.None? ==> f.step.client == c)
  {
  }
}

=== FILE: records.dfy ===
/** Vocabulary shared by the client and the server: optional values, the two
    entries the browser keeps in local storage, and the credentials posted to
    /api/auth. */
module Records {

  /** A value that may be absent (JavaScript's `null` or `undefined`). */
  datatype Option<+T> = None | Some(value: T)

  /** One hour in milliseconds, the unit of every period the client uses. */
  const HourMs: int := 60 * 60 * 1000

  /** JavaScript truthiness of an optional string: present and non-empty. */
  predicate Truthy(s: Option<string>) {
    s.Some? && s.value != ""
  }

  /** The `authSettings` entry: what the settings form last saved. */
  datatype Settings = Settings(rememberCredentials: bool, username: Option<string>, password: Option<string>)

  /** The `authToken` entry: a token and the instant, in milliseconds since
      the epoch, at which it was saved. */
  datatype TokenData = TokenData(token: string, timestamp: int)

  /** Local storage restricted to the two keys the client uses; `None` means
      the key has no entry. */
  datatype Store = Store(authSettings: Option<Settings>, authToken: Option<TokenData>)

  /** The JSON body `{username, password}` of a POST to /api/auth. */
  datatype Credentials = Credentials(username: string, password: string)

  /** The toast notifications the client raises, as event tags. */
  datatype Toast = AuthSuccess | AuthError | TokenRefreshed
}

=== FILE: session.dfy ===
/** A session of the application as a sequence of events: navigating to a
    page (which mounts a new `useToken` hook), the 23-hour interval firing,
    the settings form being submitted and the manual refresh button.
    Properties that span many transitions are proved here by induction over
    the event sequence. */
module Session {
  import opened Records
  import opened TokenLifecycle
  import SettingsPage

  /** The two routes of the router. */
  datatype Route = Home | SettingsRoute

  /** The page on screen; the settings page carries its own state. */
  datatype Screen = MainScreen | SettingsScreen(page: SettingsPage.Page)

  /** The mounted page and its hook instance. */
  datatype App = App(client: Client, screen: Screen)

  /** `Navigate` mounts the route's page at `now`; a fetch its hook makes
      settles at `settled`. The interval and the manual refresh save with the
      instant `settled` at which their request completed. */
  datatype Event =
    | Navigate(route: Route, now: int, settled: int, answer: AuthOutcome)
    | Interval(settled: int, answer: AuthOutcome)
    | Submit(form: Settings)
    | ManualRefresh(settled: int, answer: AuthOutcome)

  /** The settings panel shows the token refresh button. */
  predicate RefreshVisible(s: Screen) {
    s.SettingsScreen? && s.page.tokenInfo.Some?
  }

  /** One event. A navigation unmounts the old page and mounts a new hook
      whose token starts as null; the settings page reads both entries
      before its hook's fetch completes. Only the settings page has the form,
      and its refresh button is rendered only while its panel shows an
      entry. The interval never updates the panel. */
  function Apply(a: App, e: Event): (r: App)
    ensures e.Navigate? && !Truthy(LoadSavedToken(a.client.store, e.now))
                        && CredentialsToSend(a.client.store.authSettings).None? ==>
      r.client == Client(a.client.store, None)
    ensures e.Navigate? && e.route == Home ==> r.screen == MainScreen
    ensures e.Navigate? && e.route == SettingsRoute ==>
      r.screen == SettingsScreen(SettingsPage.Page(
        if a.client.store.authSettings.Some? then a.client.store.authSettings.value else SettingsPage.DefaultForm,
        a.client.store.authToken))
    ensures e.Interval? ==> r.screen == a.screen
    ensures e.Submit? && !a.screen.SettingsScreen? ==> r == a
    ensures e.ManualRefresh? && !RefreshVisible(a.screen) ==> r == a
    ensures e.ManualRefresh? && RefreshVisible(a.screen) && r.client.store.authToken.Some? ==>
      r.screen.SettingsScreen? && r.screen.page.tokenInfo == r.client.store.authToken
  {
    match e
    case Navigate(route, now, settled, answer) =>
      var client := Initialize(a.client.(token := None), now, settled, answer).client;
      if route == Home then App(client, MainScreen)
      else App(client, SettingsScreen(SettingsPage.Mount(a.client.store)))
    case Interval(settled, answer) => a.(client := Tick(a.client, settled, answer).client)
    case Submit(form) =>
      if a.screen.SettingsScreen? then
        App(a.client.(store := SettingsPage.Submit(a.client.store, form)),
            SettingsScreen(a.screen.page.(form := form)))
      else a
    case ManualRefresh(settled, answer) =>
      if RefreshVisible(a.screen) then
        var r := SettingsPage.HandleRefreshToken(a.client, a.screen.page, settled, answer);
        App(r.step.client, SettingsScreen(r.page))
      else a
  }

  function Run(a: App, events: seq<Event>): (r: App)
    decreases |events|
  {
    if |events| == 0 then a else Run(Apply(a, events[0]), events[1..])
  }

  /** The session invariant: the hook's token is coherent with storage, and
      a panel that shows an entry is backed by a stored entry. */
  predicate Consistent(a: App) {
    && Coherent(a.client)
    && (RefreshVisible(a.screen) ==> a.client.store.authToken.Some?)
  }

  /** Every event keeps the session invariant. */
  lemma ApplyKeepsConsistent(a: App, e: Event)
    requires Consistent(a)
    ensures Consistent(Apply(a, e))
  {
    if e.Navigate? {
      var init := Initialize(a.client.(token := None), e.now, e.settled, e.answer);
      if !Truthy(LoadSavedToken(a.client.store, e.now)) {
        assert init == FetchNewToken(a.client.(token := None), e.settled, e.answer).step;
      }
      assert a.client.store.authToken.Some? ==> init.client.store.authToken.Some?;
    }
  }

  /** Over any session that starts consistent (for instance with a null
      token), the hook's token is unset or the non-empty stored token, and a
      visible refresh button always has a stored entry behind it. */
  lemma {:induction false} RunKeepsConsistent(a: App, events: seq<Event>)
    requires Consistent(a)
    ensures Consistent(Run(a, events))
    decreases |events|
  {
    if |events| > 0 {
      ApplyKeepsConsistent(a, events[0]);
      RunKeepsConsistent(Apply(a, events[0]), events[1..]);
    }
  }

  /** In a consistent session every refresh the user can click raises
      "Token Refreshed". */
  lemma ReachableRefreshConfirmed(a: App, settled: int, answer: AuthOutcome)
    requires Consistent(a) && RefreshVisible(a.screen)
    ensures SettingsPage.HandleRefreshToken(a.client, a.screen.page, settled, answer).confirmed
  {
    SettingsPage.VisibleRefreshAlwaysConfirmed(a.client, a.screen.page, settled, answer);
  }

  /** The form of the last submission that took effect, the settings page
      being on screen exactly when `onSettings` holds before `events`. */
  function LastSubmit(onSettings: bool, events: seq<Event>): (r: Option<Settings>)
    decreases |events|
  {
    if |events| == 0 then None
    else
      var next := if events[0].Navigate? then events[0].route == SettingsRoute else onSettings;
      var later := LastSubmit(next, events[1..]);
      if later.Some? then later
      else if events[0].Submit? && onSettings then Some(events[0].form)
      else None
  }

  /** Only the settings form writes the credentials entry: after any session
      it is what the last effective submission left there, or what was there
      before when nothing was submitted. */
  lemma {:induction false} CredentialsOwnedBySettingsForm(a: App, events: seq<Event>)
    ensures var last := LastSubmit(a.screen.SettingsScreen?, events);
      && (last.None? ==> Run(a, events).client.store.authSettings == a.client.store.authSettings)
      && (last.Some? && last.value.rememberCredentials ==> Run(a, events).client.store.authSettings == last)
      && (last.Some? && !last.value.rememberCredentials ==> Run(a, events).client.store.authSettings.None?)
    decreases |events|
  {
    if |events| > 0 {
      CredentialsOwnedBySettingsForm(Apply(a, events[0]), events[1..]);
    }
  }

  /** Stale tokens are never deleted: once an `authToken` entry exists it
      stays for the rest of the session. */
  lemma {:induction false} TokenEntryNeverRemoved(a: App, events: seq<Event>)
    requires a.client.store.authToken.Some?
    ensures Run(a, events).client.store.authToken.Some?
    decreases |events|
  {
    if |events| > 0 {
      var e := events[0];
      if e.Navigate? && !Truthy(LoadSavedToken(a.client.store, e.now)) {
        assert Initialize(a.client.(token := None), e.now, e.settled, e.answer)
            == FetchNewToken(a.client.(token := None), e.settled, e.answer).step;
      }
      TokenEntryNeverRemoved(Apply(a, e), events[1..]);
    }
  }

  /** One firing of the interval at `now`, whose request completed at
      `settled` with `token`. */
  datatype Beat = Beat(now: int, settled: int, token: string)

  /** Each beat comes before the token saved by the previous one (or at
      `last`) has expired, and its request settles before the next beat, so
      no two requests are in flight at once. */
  ghost predicate OnSchedule(last: int, beats: seq<Beat>)
    decreases |beats|
  {
    |beats| == 0 ||
    (&& beats[0].now - last < ValidityMs
     && (|beats| == 1 || beats[0].settled < beats[1].now)
     && OnSchedule(beats[0].settled, beats[1..]))
  }

  /** At every beat the stored token is still fresh when the interval fires. */
  ghost predicate FreshAtEveryBeat(c: Client, beats: seq<Beat>)
    decreases |beats|
  {
    |beats| == 0 ||
    (LoadSavedToken(c.store, beats[0].now).Some? &&
     FreshAtEveryBeat(Tick(c, beats[0].settled, Answered(Some(beats[0].token))).client, beats[1..]))
  }

  /** While every firing succeeds and each comes before the previously saved
      token expires, the interval never finds the stored token expired. */
  lemma {:induction false} ScheduledRefreshKeepsTokenFresh(c: Client, beats: seq<Beat>)
    requires c.store.authToken.Some?
    requires CredentialsToSend(c.store.authSettings).Some?
    requires forall i :: 0 <= i < |beats| ==> beats[i].token != ""
    requires OnSchedule(c.store.authToken.value.timestamp, beats)
    ensures FreshAtEveryBeat(c, beats)
    decreases |beats|
  {
    if |beats| > 0 {
      var next := Tick(c, beats[0].settled, Answered(Some(beats[0].token))).client;
      assert next.store.authToken == Some(TokenData(beats[0].token, beats[0].settled));
      ScheduledRefreshKeepsTokenFresh(next, beats[1..]);
    }
  }

  /** How a firing's request ends: `delay` milliseconds after the firing,
      with `token`. */
  datatype Settle = Settle(delay: nat, token: string)

  /** The interval as written is started at mount: its k-th firing comes k
      refresh periods after `mount`, whenever the token was saved. */
  function IntervalFiring(mount: int, k: nat): (r: int)
  {
    mount + k * RefreshPeriodMs
  }

  /** The firings after the k-th one, their requests ending in turn as
      `settles` says. */
  function IntervalBeats(mount: int, k: nat, settles: seq<Settle>): (r: seq<Beat>)
    ensures |r| == |settles|
    ensures forall i :: 0 <= i < |r| ==>
      && r[i].now == mount + (k + 1 + i) * RefreshPeriodMs
      && r[i].settled == r[i].now + settles[i].delay
      && r[i].token == settles[i].token
    decreases |settles|
  {
    if |settles| == 0 then []
    else
      var firing := IntervalFiring(mount, k + 1);
      [Beat(firing, firing + settles[0].delay, settles[0].token)] + IntervalBeats(mount, k + 1, settles[1..])
  }

  /** Consecutive firings are one refresh period apart and each save comes
      no earlier than its firing and before the next one, so the firings
      after the k-th are on schedule for any save less than a day before the
      next firing. */
  lemma {:induction false} IntervalBeatsOnSchedule(last: int, mount: int, k: nat, settles: seq<Settle>)
    requires IntervalFiring(mount, k + 1) - last < ValidityMs
    requires forall i :: 0 <= i < |settles| ==> settles[i].delay < RefreshPeriodMs
    ensures OnSchedule(last, IntervalBeats(mount, k, settles))
    decreases |settles|
  {
    if |settles| > 0 {
      var beats := IntervalBeats(mount, k, settles);
      assert beats[1..] == IntervalBeats(mount, k + 1, settles[1..]);
      IntervalBeatsOnSchedule(IntervalFiring(mount, k + 1), mount, k + 1, settles[1..]);
    }
  }

  /** Once a fetch has stored a token at or after the k-th firing (k = 0 is
      the fetch at mount), every following firing finds it fresh, as long as
      each of them succeeds. */
  lemma IntervalKeepsTokenFreshAfterSave(c: Client, mount: int, k: nat, settles: seq<Settle>)
    requires c.store.authToken.Some?
    requires IntervalFiring(mount, k) <= c.store.authToken.value.timestamp < IntervalFiring(mount, k + 1)
    requires CredentialsToSend(c.store.authSettings).Some?
    requires forall i :: 0 <= i < |settles| ==> settles[i].token != ""
    requires forall i :: 0 <= i < |settles| ==> settles[i].delay < RefreshPeriodMs
    ensures FreshAtEveryBeat(c, IntervalBeats(mount, k, settles))
  {
    IntervalBeatsOnSchedule(c.store.authToken.value.timestamp, mount, k, settles);
    ScheduledRefreshKeepsTokenFresh(c, IntervalBeats(mount, k, settles));
  }

  /** As written, a token that `initialize` reuses at mount is not refreshed
      in time when it was more than an hour old: the first firing, 23 hours
      after mount, finds it expired. */
  lemma ReusedTokenExpiresBeforeFirstFiring(c: Client, mount: int, settled: int, answer: AuthOutcome, first: Settle)
    requires c.store.authToken.Some? && c.store.authToken.value.token != ""
    requires HourMs < mount - c.store.authToken.value.timestamp < ValidityMs
    ensures var s := Initialize(c.(token := None), mount, settled, answer);
      && s.sent.None?
      && s.client == Client(c.store, Some(c.store.authToken.value.token))
      && LoadSavedToken(s.client.store, IntervalFiring(mount, 1)).None?
      && !FreshAtEveryBeat(s.client, IntervalBeats(mount, 0, [first]))
  {
  }

  /** In that case the mounted hook keeps holding the expired token from the
      moment it expires until the first firing, a window of up to 23 hours. */
  lemma ReusedTokenStaleWindow(c: Client, mount: int, settled: int, answer: AuthOutcome, now: int)
    requires c.store.authToken.Some? && c.store.authToken.value.token != ""
    requires HourMs < mount - c.store.authToken.value.timestamp < ValidityMs
    requires c.store.authToken.value.timestamp + ValidityMs <= now < IntervalFiring(mount, 1)
    ensures var s := Initialize(c.(token := None), mount, settled, answer);
      && s.client.token == Some(c.store.authToken.value.token)
      && LoadSavedToken(s.client.store, now).None?
    ensures IntervalFiring(mount, 1) - (c.store.authToken.value.timestamp + ValidityMs) < RefreshPeriodMs
  {
  }

  /** The evidently intended anchor of the interval: when `initialize`
      reuses a stored token, the first firing comes 23 hours after that
      token was saved, or at mount if that instant has passed; otherwise
      23 hours after mount. */
  function CorrectedAnchor(c: Client, mount: int): (r: int)
    ensures Truthy(LoadSavedToken(c.store, mount)) ==>
      && c.store.authToken.Some?
      && mount <= IntervalFiring(r, 1) < c.store.authToken.value.timestamp + ValidityMs
    ensures !Truthy(LoadSavedToken(c.store, mount)) ==> r == mount
  {
    if Truthy(LoadSavedToken(c.store, mount)) then
      var saved := c.store.authToken.value.timestamp;
      if saved < mount - RefreshPeriodMs then mount - RefreshPeriodMs else saved
    else mount
  }

  /** With the corrected anchor, a hook that starts with a token (reused or
      fetched at mount) finds it fresh at every firing, as long as each
      firing succeeds. */
  lemma {:induction false} CorrectedScheduleKeepsTokenFresh(c: Client, mount: int, settled: int, answer: AuthOutcome, settles: seq<Settle>)
    requires mount <= settled
    requires !Truthy(LoadSavedToken(c.store, mount)) ==> settled < IntervalFiring(CorrectedAnchor(c, mount), 1)
    requires CredentialsToSend(c.store.authSettings).Some?
    requires Truthy(LoadSavedToken(c.store, mount)) || (answer.Answered? && Truthy(answer.token))
    requires forall i :: 0 <= i < |settles| ==> settles[i].token != ""
    requires forall i :: 0 <= i < |settles| ==> settles[i].delay < RefreshPeriodMs
    ensures FreshAtEveryBeat(Initialize(c.(token := None), mount, settled, answer).client,
                             IntervalBeats(CorrectedAnchor(c, mount), 0, settles))
  {
    var s := Initialize(c.(token := None), mount, settled, answer).client;
    var anchor := CorrectedAnchor(c, mount);
    if Truthy(LoadSavedToken(c.store, mount)) {
      assert s.store == c.store;
    } else {
      assert anchor == mount;
      assert s.store.authToken == Some(TokenData(answer.token.value, settled));
    }
    IntervalBeatsOnSchedule(s.store.authToken.value.timestamp, anchor, 0, settles);
    ScheduledRefreshKeepsTokenFresh(s, IntervalBeats(anchor, 0, settles));
  }
}

=== FILE: settings_page.dfy ===
/** The settings page: the form that saves or erases the credentials entry,
    the mount-time read of both entries, the displayed auto-refresh instant
    and the manual refresh button. */
module SettingsPage {
  import opened Records
  import opened TokenLifecycle

  /** The page state that depends on storage: the form values and the
      token entry shown in the "Current Authentication Token" panel. */
  datatype Page = Page(form: Settings, tokenInfo: Option<TokenData>)

  /** The form's default values. */
  const DefaultForm: Settings := Settings(false, Some(""), Some(""))

  /** `onSubmit`: with remembering on, the submitted record is stored under
      `authSettings`; with it off, the entry is removed whatever it held.
      The token entry is never touched. */
  function Submit(s: Store, data: Settings): (r: Store)
    ensures data.rememberCredentials ==> r.authSettings == Some(data)
    ensures !data.rememberCredentials ==> r.authSettings.None?
    ensures r.authToken == s.authToken
  {
    if data.rememberCredentials then s.(authSettings := Some(data))
    else s.(authSettings := None)
  }

  /** The mount effect: the form is reset to the saved record when there is
      one, and the token panel shows the stored token entry when there is one. */
  function Mount(s: Store): (r: Page)
    ensures s.authSettings.Some? ==> r.form == s.authSettings.value
    ensures s.authSettings.None? ==> r.form == Settings(false, Some(""), Some(""))
    ensures r.tokenInfo == s.authToken
  {
    Page(if s.authSettings.Some? then s.authSettings.value else DefaultForm, s.authToken)
  }

  /** Saving and then reopening the page shows the submitted record when it
      was remembered and the defaults when it was not, and the token panel
      is unaffected by the submission. */
  lemma SubmitThenMount(s: Store, data: Settings)
    ensures Mount(Submit(s, data)).form == (if data.rememberCredentials then data else DefaultForm)
    ensures Mount(Submit(s, data)).tokenInfo == Mount(s).tokenInfo
  {
  }

  /** The form feeds the fetch: after a remembered submission with a
      non-empty username and password, the next fetch posts exactly that
      pair; after any other submission it posts nothing and changes nothing. */
  lemma SubmitThenFetch(c: Client, data: Settings, now: int, answer: AuthOutcome)
    ensures var f := FetchNewToken(c.(store := Submit(c.store, data)), now, answer);
      && (data.rememberCredentials && Truthy(data.username) && Truthy(data.password) ==>
            f.step.sent == Some(Credentials(data.username.value, data.password.value)))
      && (!(data.rememberCredentials && Truthy(data.username) && Truthy(data.password)) ==>
            f.step.sent.None? && f.step.client == c.(store := Submit(c.store, data)) && f.result.None?)
  {
  }

  /** The instant shown as "Auto-refresh in": 23 hours after the token's
      timestamp, and nothing when there is no entry or its timestamp is 0
      (the display effect's falsy guard). */
  function RefreshInstant(info: Option<TokenData>): (r: Option<int>)
    ensures r.Some? <==> info.Some? && info.value.timestamp != 0
    ensures r.Some? ==> r.value - info.value.timestamp == 23 * 60 * 60 * 1000
  {
    if info.Some? && info.value.timestamp != 0 then Some(info.value.timestamp + RefreshPeriodMs)
    else None
  }

  /** The displayed refresh instant falls while the token is still fresh,
      and the token expires exactly one hour after it. */
  lemma RefreshInstantBeforeExpiry(d: TokenData)
    requires d.timestamp != 0
    ensures RefreshInstant(Some(d)).Some?
    ensures Fresh(d, RefreshInstant(Some(d)).value)
    ensures !Fresh(d, RefreshInstant(Some(d)).value + HourMs)
  {
  }

  /** The outcome of `handleRefreshToken`: the fetch's effect, the page
      afterwards, and whether the "Token Refreshed" toast was shown. */
  datatype Refreshed = Refreshed(step: Step, page: Page, confirmed: bool)

  /** `handleRefreshToken`: runs the fetch, then re-reads `authToken`; when
      an entry exists the panel shows it and the success toast is raised,
      whether or not the fetch obtained a token. */
  function HandleRefreshToken(c: Client, p: Page, now: int, answer: AuthOutcome): (r: Refreshed)
    ensures r.step == FetchNewToken(c, now, answer).step
    ensures r.confirmed <==> r.step.client.store.authToken.Some?
    ensures r.step.client.store.authToken.Some? ==> r.page.tokenInfo == r.step.client.store.authToken
    ensures r.step.client.store.authToken.None? ==> r.page.tokenInfo == p.tokenInfo
    ensures r.page.form == p.form
  {
    var step := FetchNewToken(c, now, answer).step;
    var saved := step.client.store.authToken;
    if saved.Some? then Refreshed(step, p.(tokenInfo := saved), true)
    else Refreshed(step, p, false)
  }

  /** After a manual refresh the panel mirrors storage, provided it did
      before or an entry exists; a successful fetch shows the new token
      stamped with the refresh time. */
  lemma RefreshShowsStoredEntry(c: Client, p: Page, now: int, answer: AuthOutcome)
    requires p.tokenInfo == c.store.authToken || c.store.authToken.Some?
    ensures HandleRefreshToken(c, p, now, answer).page.tokenInfo
         == HandleRefreshToken(c, p, now, answer).step.client.store.authToken
    ensures FetchNewToken(c, now, answer).result.Some? ==>
      HandleRefreshToken(c, p, now, answer).page.tokenInfo
        == Some(TokenData(FetchNewToken(c, now, answer).result.value, now))
  {
  }

  /** The refresh button is rendered only while the panel shows an entry.
      The panel's entry was read from storage, and no transition removes
      the `authToken` entry. So every refresh the user can trigger raises
      "Token Refreshed", whatever the fetch obtained. */
  lemma VisibleRefreshAlwaysConfirmed(c: Client, p: Page, now: int, answer: AuthOutcome)
    requires p.tokenInfo.Some?
    requires c.store.authToken.Some?
    ensures HandleRefreshToken(c, p, now, answer).confirmed
    ensures HandleRefreshToken(c, p, now, answer).page.tokenInfo.Some?
  {
  }

  /** With an entry already stored, a refresh whose request fails still
      raises "Token Refreshed" (next to the error toast of the fetch) and
      shows the old entry unchanged. */
  lemma FailedRefreshStillConfirmed(c: Client, p: Page, now: int, message: string)
    requires c.store.authToken.Some?
    requires CredentialsToSend(c.store.authSettings).Some?
    ensures HandleRefreshToken(c, p, now, Failed(message)).confirmed
    ensures HandleRefreshToken(c, p, now, Failed(message)).step.toast == Some(AuthError)
    ensures HandleRefreshToken(c, p, now, Failed(message)).page.tokenInfo == c.store.authToken
  {
  }
}

=== FILE: token_lifecycle.dfy ===
/** The `useToken` hook: a persisted token that expires after 24 hours, a
    fetch that trades remembered credentials for a new token, start-up
    initialisation, and the 23-hour refresh. Every transition is a pure
    function of the client state, the current time and the settled auth call. */
module TokenLifecycle {
  import opened Records

  /** A saved token is usable while it is younger than 24 hours. */
  const ValidityMs: int := 24 * HourMs

  /** The interval of the scheduled refresh: 23 hours. */
  const RefreshPeriodMs: int := 23 * HourMs

  /** One `useToken` instance: local storage and the in-memory token. */
  datatype Client = Client(store: Store, token: Option<string>)

  /** How the POST /api/auth promise settled, as seen after the response
      interceptor: resolved with a body whose `token` field may be missing
      or falsy, or rejected with the interceptor's message. */
  datatype AuthOutcome = Answered(token: Option<string>) | Failed(message: string)

  /** The effect of one transition: the client afterwards, the credentials
      posted to /api/auth (if a request was made) and the toast raised. */
  datatype Step = Step(client: Client, sent: Option<Credentials>, toast: Option<Toast>)

  /** The effect of `fetchNewToken` and the value its promise resolves to. */
  datatype Fetch = Fetch(step: Step, result: Option<string>)

  /** A stored token is fresh while less than `ValidityMs` has elapsed. */
  predicate Fresh(d: TokenData, now: int) {
    now - d.timestamp < ValidityMs
  }

  /** The in-memory token, when set, is non-empty and is the token stored
      under `authToken`. */
  predicate Coherent(c: Client) {
    c.token.Some? ==>
      && c.token.value != ""
      && c.store.authToken.Some?
      && c.store.authToken.value.token == c.token.value
  }

  /** `saveToken`: stores the token stamped with the current time and makes
      it the in-memory token. */
  function SaveToken(c: Client, t: string, now: int): (r: Client)
    ensures r.token == Some(t)
    ensures r.store.authToken.Some? && r.store.authToken.value.token == t
    ensures r.store.authToken.value.timestamp == now && Fresh(r.store.authToken.value, now)
    ensures r.store.authSettings == c.store.authSettings
  {
    Client(c.store.(authToken := Some(TokenData(t, now))), Some(t))
  }

  /** `loadSavedToken`: the stored token if there is one and it is fresh. */
  function LoadSavedToken(s: Store, now: int): (r: Option<string>)
    ensures r.Some? <==> s.authToken.Some? && now - s.authToken.value.timestamp < 24 * 60 * 60 * 1000
    ensures r.Some? ==> r.value == s.authToken.value.token
    ensures s.authToken.None? ==> r.None?
  {
    match s.authToken
    case None => None
    case Some(d) => if Fresh(d, now) then Some(d.token) else None
  }

  /** The guard at the top of `fetchNewToken`: the credentials to post, or
      `None` when nothing is saved, remembering is off, or the username or
      the password is missing or empty. */
  function CredentialsToSend(saved: Option<Settings>): (r: Option<Credentials>)
    ensures r.Some? <==>
      && saved.Some?
      && saved.value.rememberCredentials
      && Truthy(saved.value.username)
      && Truthy(saved.value.password)
    ensures r.Some? ==>
      r.value == Credentials(saved.value.username.value, saved.value.password.value)
  {
    match saved
    case None => None
    case Some(s) =>
      if !s.rememberCredentials || !Truthy(s.username) || !Truthy(s.password) then None
      else Some(Credentials(s.username.value, s.password.value))
  }

  /** `fetchNewToken`: posts the remembered credentials and, on a truthy
      token, saves it. A failed call and an answer without a token leave
      the client untouched and resolve to `None`; only a failed call raises
      the error toast. The credentials entry is read, never written. */
  function FetchNewToken(c: Client, now: int, answer: AuthOutcome): (r: Fetch)
    ensures r.step.sent == CredentialsToSend(c.store.authSettings)
    ensures r.step.sent.None? ==> r.step.client == c && r.result.None? && r.step.toast.None?
    ensures r.result.Some? <==> r.step.sent.Some? && answer.Answered? && Truthy(answer.token)
    ensures r.result.Some? ==>
      && r.result == answer.token
      && r.step.client.token == r.result
      && r.step.client.store.authToken == Some(TokenData(r.result.value, now))
    ensures r.result.None? ==> r.step.client == c
    ensures r.step.client.store.authSettings == c.store.authSettings
    ensures r.step.toast == Some(AuthSuccess) <==> r.result.Some?
    ensures r.step.toast == Some(AuthError) <==> r.step.sent.Some? && answer.Failed?
    ensures r.step.toast.None? || r.step.toast == Some(AuthSuccess) || r.step.toast == Some(AuthError)
    ensures Coherent(c) ==> Coherent(r.step.client)
  {
    match CredentialsToSend(c.store.authSettings)
    case None => Fetch(Step(c, None, None), None)
    case Some(creds) =>
      match answer
      case Answered(t) =>
        if Truthy(t) then Fetch(Step(SaveToken(c, t.value, now), Some(creds), Some(AuthSuccess)), t)
        else Fetch(Step(c, Some(creds), None), None)
      case Failed(_) => Fetch(Step(c, Some(creds), Some(AuthError)), None)
  }

  /** `initialize`: a fresh, truthy stored token becomes the in-memory token
      without any request; otherwise the client fetches. The age check reads
      the clock at `now`; a fetch saves its token with the time `settled` at
      which the request completed. */
  function Initialize(c: Client, now: int, settled: int, answer: AuthOutcome): (r: Step)
    ensures Truthy(LoadSavedToken(c.store, now)) ==>
      && r.sent.None?
      && r.toast.None?
      && r.client == Client(c.store, LoadSavedToken(c.store, now))
    ensures !Truthy(LoadSavedToken(c.store, now)) ==> r == FetchNewToken(c, settled, answer).step
    ensures r.client.store.authSettings == c.store.authSettings
    ensures Coherent(c) ==> Coherent(r.client)
  {
    var saved := LoadSavedToken(c.store, now);
    if Truthy(saved) then Step(c.(token := saved), None, None)
    else FetchNewToken(c, settled, answer).step
  }

  /** One firing of the 23-hour interval, which runs `fetchNewToken`: it posts
      the remembered credentials if there are any, and only a truthy token
      replaces the stored one, stamped with the instant `settled` at which the
      request completed, and becomes the hook's token. */
  function Tick(c: Client, settled: int, answer: AuthOutcome): (r: Step)
    ensures r.sent == CredentialsToSend(c.store.authSettings)
    ensures r.client.store.authSettings == c.store.authSettings
    ensures r.client != c ==>
      && r.sent.Some?
      && answer.Answered? && Truthy(answer.token)
      && r.client.store.authToken == Some(TokenData(answer.token.value, settled))
    ensures r.sent.Some? && answer.Answered? && Truthy(answer.token) ==>
      LoadSavedToken(r.client.store, settled + RefreshPeriodMs) == answer.token
    ensures r.sent.Some? && answer.Answered? && Truthy(answer.token) ==>
      r.client == SaveToken(c, answer.token.value, settled)
    ensures c.store.authToken.Some? ==> r.client.store.authToken.Some?
    ensures Coherent(c) ==> Coherent(r.client)
  {
    FetchNewToken(c, settled, answer).step
  }

  /** A token read back after `saveToken` at `saved` is returned exactly
      while less than 24 hours have passed. */
  lemma SaveThenLoad(c: Client, t: string, saved: int, now: int)
    ensures LoadSavedToken(SaveToken(c, t, saved).store, now) == Some(t) <==> now < saved + ValidityMs
    ensures now >= saved + ValidityMs ==> LoadSavedToken(SaveToken(c, t, saved).store, now).None?
  {
  }

  /** The expiry boundary: one millisecond before 24 hours the token is
      returned, at exactly 24 hours it is not. */
  lemma ExpiryBoundary(s: Store)
    requires s.authToken.Some?
    ensures LoadSavedToken(s, s.authToken.value.timestamp + ValidityMs - 1) == Some(s.authToken.value.token)
    ensures LoadSavedToken(s, s.authToken.value.timestamp + ValidityMs).None?
  {
  }

  /** The refresh period is shorter than the validity window by one hour, so
      a token saved at `saved` is still returned at the next tick and for the
      hour of slack after it. */
  lemma TickBeforeExpiry(c: Client, t: string, saved: int, late: int)
    requires 0 <= late < HourMs
    ensures RefreshPeriodMs < ValidityMs && ValidityMs - RefreshPeriodMs == HourMs
    ensures LoadSavedToken(SaveToken(c, t, saved).store, saved + RefreshPeriodMs + late) == Some(t)
  {
  }
}
